=== FILE: README.md ===
# Object-detection upload endpoint: a Dafny model

The repository is a small Flask service with one real endpoint, `POST /detect`.
It accepts an uploaded image and checks its file name against an extension
allow-list. It stores the upload under a random identifier and decodes it. It
then paints a fixed set of labelled boxes onto a copy and answers with JSON. The
JSON holds both file URLs, the (synthetic) detections and the image size. This
project models the two parts that are plain logic, with the foreign calls taken
as inputs:

- `allowed_file` (module `UploadPolicy`, with the string operations it relies on
  in `Text`). A name is accepted when it contains a dot and the text after its
  last dot, lowercased, is `png`, `jpg`, `jpeg` or `gif`.
- the decision logic of `detect_objects` (module `Detect`, with `Paths` for the
  stored names and URLs and `Annotation` for the detections and drawing calls).
  `Detect.DetectObjects` takes four inputs:
  - the client file name, as `None` when the request has no `file` field;
  - the output of `secure_filename`, as an opaque string;
  - the 8-character identifier, as a `UniqueId` of eight lower-case hex digits,
    which is what the first eight characters of a UUID's text form are;
  - the outcome of decoding, as `None` or a `Size`.

  It returns the response and the file writes the handler makes. The response
  is either `Ok(report)` (HTTP 200) or `BadRequest(message)` (HTTP 400). Each
  write is the raw upload (`file.save`), or the annotated result together with
  the drawing calls made on it (`cv2.imwrite`).

Confidences are integer hundredths (`95` for `0.95`). Lowercasing is ASCII only.

## Model

| member | source | states |
|---|---|---|
| Text.Lower | app.py:18 | `.lower()` on ASCII text keeps the length and lowers every character, so dots stay where they are |
| Text.LowerIdempotent | app.py:18 | lowering an already lowered name changes nothing |
| Text.LastIndexOf | app.py:18 | finds the last occurrence of a character, or reports that there is none, and no later occurrence follows the one found |
| Text.RSplitOnce | app.py:18 | `rsplit('.', 1)` gives the whole name when there is no dot, and otherwise two parts that join back to the name with a dot and whose tail holds no dot |
| UploadPolicy.AllowedFileMeans | app.py:17-18 | a name is allowed exactly when it splits as stem, dot, dot-free extension and the lowered extension is in the allow-list; a name with no dot, the empty name included, is refused |
| UploadPolicy.LastExtensionDecides | app.py:18 | for any stem, the verdict on stem + "." + ext (ext without dots) is exactly whether the lowered ext is allowed, so only the last extension counts |
| UploadPolicy.AllowedFileOfLower | app.py:18 | lowering the whole name first does not change the verdict |
| UploadPolicy.CaseInsensitive | app.py:18 | two names that lower to the same text get the same verdict |
| UploadPolicy.NoDotExamples | app.py:18 | "" and "photo" are refused |
| UploadPolicy.TrailingDotExample | app.py:18 | "name." has an empty extension and is refused |
| UploadPolicy.LastExtensionAccepted | app.py:18 | "x.tar.png" is accepted, and so is ".gif", which has no stem at all |
| UploadPolicy.DoubleExtensionRefused | app.py:18 | "photo.png.txt" is refused |
| UploadPolicy.MixedCaseExample | app.py:18 | "A.JPG" and "a.jpg" are both accepted |
| Paths.Join | app.py:41 | POSIX `os.path.join` of two parts: a second part that starts with `/` replaces the first; otherwise the result starts with the first part, ends with the second, and a `/` is inserted between them exactly when the first part is non-empty and does not already end in `/` |
| Paths.SaveNameInjective | app.py:39-40 | `<id>_<name>` names are equal exactly when both the identifiers and the sanitised names are equal, so distinct identifiers never collide |
| Paths.ResultNameRoundTrip | app.py:61 | the result name is `detected_` followed by the stored name, and dropping the tag gives the stored name back |
| Paths.UploadUrlIsPath | app.py:41 | the upload is written to `static/uploads/<id>_<name>`, and the URL the response reports (line 75) is that path with a leading `/` |
| Paths.ResultUrlIsPath | app.py:62 | the result is written to `static/results/detected_<id>_<name>`, and the URL the response reports (line 76) is that path with a leading `/` |
| Annotation.DetectionsShape | app.py:65-71 | the detections list starts with Person [50,50,200,200], then Car [300,150,450,350]; Dog [100,300,300,450] is a third entry exactly when width > 500 and height > 400; otherwise the list has 2 entries |
| Annotation.ThresholdIsStrict | app.py:70 | a width of exactly 500 or a height of exactly 400 gives two detections; 501 by 401 gives three |
| Annotation.LargerImageExtends | app.py:57-71 | a larger image never loses a detection or a drawing call: the smaller image's lists are prefixes of the larger one's |
| Annotation.DrawingMatchesDetections | app.py:51-71 | two drawing calls per reported detection, in the same order: the detection's box with a 3-pixel outline, then a caption in the same colour, 10 pixels right of and above the box, reading name, ": " and the confidence; so the third rectangle is drawn exactly when Dog is reported |
| Detect.DetectObjects | app.py:25-80 | the answer is 200 exactly when the file field is present, its name is non-empty and allowed, and the image decodes; every 400 carries one of the four messages; nothing is written before validation passes; an undecodable image leaves exactly the upload written to `static/uploads/<id>_<name>`; on success the image size is the decoded size, unchanged |
| Detect.ValidationPrecedence | app.py:27-46 | the handler answers 400 exactly when one of the ordered checks fails (file field, non-empty name, allowed type, decodable image), and the message is that of the first failed check |
| Detect.FirstFailedCheck | app.py:27-46 | of the four ordered checks (file field, non-empty name, allowed type, decodable image), the reported message is that of the first one that fails, and there is none when all pass |
| Detect.HandlerStatus | app.py:27-46 | the handler answers with status 200 exactly when none of the four ordered checks fails, and with 400 otherwise |
| Detect.EmptyNameBeforeType | app.py:32-36 | an empty name is answered "No file selected", although the allow-list would refuse it too |
| Detect.SuccessUrls | app.py:39-76 | on success `original` is `/static/uploads/<id>_<name>` and `result` is `/static/results/detected_<id>_<name>` |
| Detect.UrlsAreWrittenPaths | app.py:41-76 | on success the handler makes exactly two writes, the upload then the annotated result, and each reported URL is the path of one of them with a leading `/` |
| Detect.ResultDerivesFromOriginal | app.py:61-76 | the result URL is the results prefix, `detected_` and whatever follows the uploads prefix in the original URL |
| Detect.WrittenDrawingMatchesReport | app.py:51-71 | the annotated write holds a box and a caption for each reported detection, in the same order, and nothing else |
| Detect.DistinctIdsDistinctFiles | app.py:39-41 | two successful requests with different identifiers write and report different upload and result paths |

## Left out

- Flask routing, the `request.files` machinery, `jsonify` and the HTTP plumbing: the outcome is a `Response` value, and `Detect.StatusCode` gives its status (see `Detect.HandlerStatus`).
- The folders are created when the process starts, and files are written by `file.save` and `cv2.imwrite`. These are I/O, so they are not modelled. The writes the handler makes are recorded as data (`Handled.writes`); their bytes are not.
- The handler ignores the value `cv2.imwrite` returns, and OpenCV reports a failed write that way rather than by raising. The model assumes every write succeeds, so a 200 may in reality point at a result file that was never written.
- OpenCV decoding and drawing are foreign pixel operations. Decoding is the `decoded` input. Drawing is a list of `DrawOp` values, with the font left implicit.
- `secure_filename` is library code that is not part of this model. Its output is the `sanitized` input. The model therefore says nothing about whether the stored name keeps the allowed extension.
- `uuid.uuid4()` is randomness. The identifier is an input. `Detect.DistinctIdsDistinctFiles` assumes two different identifiers; the chance that two requests draw the same one is not modelled.
- The `timestamp` field comes from the wall clock and is not part of the report.
- The constant `success: true` field of the success body is not a field of `Report`; the `Ok` constructor stands for it.
- `os.path` is taken to be `posixpath`; on Windows `ntpath` would join with a backslash, and the URL-is-path lemmas would not hold.
- The catch-all HTTP 500 path is left out because it only serves exceptions raised inside foreign calls (saving, decoding, drawing, writing). Such an exception can follow a name that `allowed_file` accepts: if `secure_filename` strips the extension (a name of non-ASCII letters and `.png` may come out as just `png`), `cv2.imwrite` can raise for want of a writer, and the real handler answers 500 where `Detect.DetectObjects` answers 200. The model's file name is always a string; a `filename` of `None` only arises for a file object built by hand, not from a parsed request, and is not modelled.
- The confidence values are floats. They are modelled as integer hundredths.
- The `home` and `health` endpoints return constants and contain no logic.
- Text.Lower: models ASCII lowercasing only, because Python's Unicode-aware `str.lower()` (case mappings outside ASCII, for example `İ`) is not modelled.

=== FILE: annotation.dfy ===
/**
  The synthetic "detection" of the endpoint: a fixed list of labelled boxes,
  the third of which appears only on images wider than 500 and taller than
  400 pixels, and the drawing operations that paint the same boxes and
  captions onto a copy of the image.
 */
module Annotation {

  /** Pixel dimensions of a decoded image. */
  datatype Size = Size(width: nat, height: nat)

  datatype Point = Point(x: int, y: int)

  /** A bounding box, reported as `[x1, y1, x2, y2]`. */
  datatype Box = Box(x1: int, y1: int, x2: int, y2: int)

  /** An OpenCV colour, in blue-green-red order. */
  datatype Color = Color(blue: nat, green: nat, red: nat)

  /** One OpenCV drawing call on the result image (the font is always the same and left implicit). */
  datatype DrawOp =
    | Rectangle(p1: Point, p2: Point, color: Color, thickness: nat)
    | Caption(text: string, origin: Point, color: Color, scale: nat, thickness: nat)

  /** One reported detection (`object` in the response is `name` here); the confidence is kept in hundredths (95 stands for 0.95). */
  datatype Detection = Detection(name: string, confidence: nat, bbox: Box)

  const Green: Color := Color(0, 255, 0)
  const Blue: Color := Color(255, 0, 0)
  const Red: Color := Color(0, 0, 255)

  const PersonDetection: Detection := Detection("Person", 95, Box(50, 50, 200, 200))
  const CarDetection: Detection := Detection("Car", 88, Box(300, 150, 450, 350))
  const DogDetection: Detection := Detection("Dog", 92, Box(100, 300, 300, 450))

  /** The drawing calls made on the result image, in order. */
  function Annotate(size: Size): seq<DrawOp> {
    [ Rectangle(Point(50, 50), Point(200, 200), Green, 3),
      Caption("Person: 0.95", Point(60, 40), Green, 1, 2),
      Rectangle(Point(300, 150), Point(450, 350), Blue, 3),
      Caption("Car: 0.88", Point(310, 140), Blue, 1, 2) ]
    + (if size.width > 500 && size.height > 400 then
         [ Rectangle(Point(100, 300), Point(300, 450), Red, 3),
           Caption("Dog: 0.92", Point(110, 290), Red, 1, 2) ]
       else [])
  }

  /** The `detections` list of the response. */
  function Detections(size: Size): seq<Detection> {
    [PersonDetection, CarDetection]
    + (if size.width > 500 && size.height > 400 then [DogDetection] else [])
  }

  /** How a confidence below one is written: `0.` and two decimals. */
  function ConfidenceText(hundredths: nat): (t: string)
    requires hundredths < 100
    ensures |t| == 4 && t[..2] == "0."
    ensures '0' <= t[2] <= '9' && '0' <= t[3] <= '9'
    ensures (t[2] as int - '0' as int) * 10 + (t[3] as int - '0' as int) == hundredths
  {
    "0." + [('0' as int + hundredths / 10) as char, ('0' as int + hundredths % 10) as char]
  }

  /** The caption a detection should carry: its name, a colon and its confidence. */
  function CaptionOf(d: Detection): string
    requires d.confidence < 100
  {
    d.name + ": " + ConfidenceText(d.confidence)
  }

  /**
    The drawing calls at positions `2 * i` and `2 * i + 1` paint detection
    `d`: its box with a 3-pixel outline, then its caption in the same colour,
    10 pixels right of and above the box's top-left corner.
   */
  predicate DrawsDetection(ops: seq<DrawOp>, i: nat, d: Detection)
    requires d.confidence < 100
  {
    && 2 * i + 1 < |ops|
    && ops[2 * i].Rectangle?
    && ops[2 * i].p1 == Point(d.bbox.x1, d.bbox.y1)
    && ops[2 * i].p2 == Point(d.bbox.x2, d.bbox.y2)
    && ops[2 * i].thickness == 3
    && ops[2 * i + 1].Caption?
    && ops[2 * i + 1].text == CaptionOf(d)
    && ops[2 * i + 1].origin == Point(d.bbox.x1 + 10, d.bbox.y1 - 10)
    && ops[2 * i + 1].color == ops[2 * i].color
  }

  /**
    The list always opens with Person and Car, in that order; Dog is appended
    as a third entry exactly when the width exceeds 500 and the height
    exceeds 400.
   */
  lemma DetectionsShape(size: Size)
    ensures |Detections(size)| == 2 || |Detections(size)| == 3
    ensures Detections(size)[0] == PersonDetection && Detections(size)[1] == CarDetection
    ensures |Detections(size)| == 3 <==> size.width > 500 && size.height > 400
    ensures |Detections(size)| == 3 ==> Detections(size)[2] == DogDetection
  {
  }

  /** The thresholds are strict: a width of 500 or a height of 400 is not enough. */
  lemma ThresholdIsStrict(w: nat, h: nat)
    ensures |Detections(Size(500, h))| == 2
    ensures |Detections(Size(w, 400))| == 2
    ensures |Detections(Size(501, 401))| == 3
  {
  }

  /** A larger image never loses a detection nor a drawing call: the smaller lists are prefixes. */
  lemma LargerImageExtends(small: Size, large: Size)
    requires small.width <= large.width && small.height <= large.height
    ensures Detections(small) <= Detections(large)
    ensures Annotate(small) <= Annotate(large)
  {
  }

  /**
    The picture and the report agree: the result image carries exactly one box
    and one caption per reported detection, in the same order, so the third
    rectangle is drawn exactly when Dog is reported.
   */
  lemma DrawingMatchesDetections(size: Size)
    ensures |Annotate(size)| == 2 * |Detections(size)|
    ensures forall i :: 0 <= i < |Detections(size)| ==>
      Detections(size)[i].confidence < 100 && DrawsDetection(Annotate(size), i, Detections(size)[i])
  {
    var ops := Annotate(size);
    var ds := Detections(size);
    assert CaptionOf(PersonDetection) == "Person: 0.95";
    assert CaptionOf(CarDetection) == "Car: 0.88";
    assert CaptionOf(DogDetection) == "Dog: 0.92";
    assert DrawsDetection(ops, 0, ds[0]);
    assert DrawsDetection(ops, 1, ds[1]);
    if |ds| == 3 {
      assert DrawsDetection(ops, 2, ds[2]);
    }
  }
}

=== FILE: detect.dfy ===
/**
  The decision logic of the `POST /detect` handler with its foreign calls
  turned into inputs: the uploaded file name (absent when the request has no
  `file` field), the sanitised name, the random identifier and the outcome of
  decoding the saved image. The result is the response together with the
  files the handler leaves on disk.
 */
module Detect {
  import opened Wrappers
  import opened UploadPolicy
  import opened Paths
  import opened Annotation

  /** The success body: where both files are served, what was "detected", the image size. */
  datatype Report = Report(original: string, result: string, detections: seq<Detection>, imageSize: Size)

  /** A response: HTTP 200 with a report, or HTTP 400 with an error message. */
  datatype Response = Ok(report: Report) | BadRequest(error: string)

  /**
    A write the handler makes: `file.save` of the raw upload, or `cv2.imwrite`
    of the annotated copy with what was drawn on it. Whether the write succeeds
    is not modelled.
   */
  datatype FileWrite = Upload(path: string) | Annotated(path: string, drawing: seq<DrawOp>)

  /** The response, and the writes made while producing it, in order. */
  datatype Handled = Handled(response: Response, writes: seq<FileWrite>)

  const NoFileUploaded: string := "No file uploaded"
  const NoFileSelected: string := "No file selected"
  const FileTypeNotAllowed: string := "File type not allowed"
  const CouldNotReadImage: string := "Could not read image"

  /** The HTTP status the handler answers with. */
  function StatusCode(r: Response): int {
    if r.Ok? then 200 else 400
  }

  /** The upload passes all checks made before anything is written to disk. */
  predicate Acceptable(upload: Option<string>) {
    upload.Some? && upload.value != "" && AllowedFile(upload.value)
  }

  /** `detect_objects()` up to its response, minus the timestamp and the exception path. */
  function DetectObjects(upload: Option<string>, sanitized: string, id: UniqueId, decoded: Option<Size>): (h: Handled)
    ensures h.response.Ok? <==> Acceptable(upload) && decoded.Some?
    ensures h.response.BadRequest? ==>
      h.response.error in {NoFileUploaded, NoFileSelected, FileTypeNotAllowed, CouldNotReadImage}
    ensures h.writes == [] <==> !Acceptable(upload)
    ensures h.response == BadRequest(CouldNotReadImage) ==>
      h.writes == [Upload(Join(UploadFolder, SaveName(id, sanitized)))]
    ensures h.response.Ok? ==>
      && h.response.report.imageSize == decoded.value
      && h.response.report.detections == Detections(decoded.value)
  {
    if upload.None? then Handled(BadRequest(NoFileUploaded), [])
    else if upload.value == "" then Handled(BadRequest(NoFileSelected), [])
    else if !AllowedFile(upload.value) then Handled(BadRequest(FileTypeNotAllowed), [])
    else
      var saveName := SaveName(id, sanitized);
      var filepath := Join(UploadFolder, saveName);
      if decoded.None? then Handled(BadRequest(CouldNotReadImage), [Upload(filepath)])
      else
        var size := decoded.value;
        var drawing := Annotate(size);
        var resultName := ResultName(saveName);
        var resultPath := Join(ResultFolder, resultName);
        var report := Report(UploadUrlPrefix + saveName, ResultUrlPrefix + resultName, Detections(size), size);
        Handled(Ok(report), [Upload(filepath), Annotated(resultPath, drawing)])
  }

  /** One validation step: whether it passed, and the message reported if it is the first to fail. */
  datatype Check = Check(passed: bool, message: string)

  /** The message of the first failed check, if any. */
  function FirstFailure(checks: seq<Check>): (r: Option<string>)
    ensures r.None? <==> forall i :: 0 <= i < |checks| ==> checks[i].passed
    ensures r.Some? ==> exists i :: 0 <= i < |checks| && !checks[i].passed && checks[i].message == r.value
                                    && forall j :: 0 <= j < i ==> checks[j].passed
  {
    if checks == [] then None
    else if !checks[0].passed then Some(checks[0].message)
    else
      var r := FirstFailure(checks[1..]);
      assert forall i :: 1 <= i < |checks| ==> checks[1..][i - 1] == checks[i];
      r
  }

  /** The four validations, given whether each holds, in the order the handler makes them. */
  function OrderedChecks(present: bool, named: bool, allowed: bool, decodes: bool): seq<Check> {
    [ Check(present, NoFileUploaded),
      Check(named, NoFileSelected),
      Check(allowed, FileTypeNotAllowed),
      Check(decodes, CouldNotReadImage) ]
  }

  /**
    The validations of one request. A later check is only meaningful once the
    earlier ones pass; the first failure wins.
   */
  function Validations(upload: Option<string>, decoded: Option<Size>): seq<Check> {
    OrderedChecks(upload.Some?, upload.None? || upload.value != "",
                  upload.None? || AllowedFile(upload.value), decoded.Some?)
  }

  /** A failed check preceded only by passed ones is the first failure. */
  lemma FirstFailureAt(checks: seq<Check>, k: nat)
    requires k < |checks| && !checks[k].passed
    requires forall j :: 0 <= j < k ==> checks[j].passed
    ensures FirstFailure(checks) == Some(checks[k].message)
  {
  }

  /** The first failed check among the four, case by case. */
  lemma FirstFailedCheck(present: bool, named: bool, allowed: bool, decodes: bool)
    ensures FirstFailure(OrderedChecks(present, named, allowed, decodes)) ==
      if !present then Some(NoFileUploaded)
      else if !named then Some(NoFileSelected)
      else if !allowed then Some(FileTypeNotAllowed)
      else if !decodes then Some(CouldNotReadImage)
      else None
  {
    var checks := OrderedChecks(present, named, allowed, decodes);
    if !present {
      FirstFailureAt(checks, 0);
    } else if !named {
      FirstFailureAt(checks, 1);
    } else if !allowed {
      FirstFailureAt(checks, 2);
    } else if !decodes {
      FirstFailureAt(checks, 3);
    } else {
      assert forall i :: 0 <= i < |checks| ==> checks[i].passed;
    }
  }

  /**
    Precedence of the errors: the handler answers 400 exactly when some
    validation fails, with the message of the first one to fail.
   */
  lemma ValidationPrecedence(upload: Option<string>, sanitized: string, id: UniqueId, decoded: Option<Size>)
    ensures var h := DetectObjects(upload, sanitized, id, decoded);
      match FirstFailure(Validations(upload, decoded))
      case None => h.response.Ok?
      case Some(m) => h.response == BadRequest(m)
  {
    FirstFailedCheck(upload.Some?, upload.None? || upload.value != "",
                     upload.None? || AllowedFile(upload.value), decoded.Some?);
  }

  /**
    The status of the handler's answer: 200 when every validation passes and
    400 as soon as one fails.
   */
  lemma HandlerStatus(upload: Option<string>, sanitized: string, id: UniqueId, decoded: Option<Size>)
    ensures StatusCode(DetectObjects(upload, sanitized, id, decoded).response)
         == if FirstFailure(Validations(upload, decoded)).None? then 200 else 400
  {
    ValidationPrecedence(upload, sanitized, id, decoded);
  }

  /**
    An empty file name is reported as "No file selected", never as a
    disallowed type, although the allow-list would refuse it as well.
   */
  lemma EmptyNameBeforeType(sanitized: string, id: UniqueId, decoded: Option<Size>)
    ensures !AllowedFile("")
    ensures DetectObjects(Some(""), sanitized, id, decoded).response == BadRequest(NoFileSelected)
  {
    NoDotExamples();
  }

  /**
    On success the upload is served as `/static/uploads/<id>_<name>` and the
    result as `/static/results/detected_` followed by the same stored name.
   */
  lemma SuccessUrls(upload: Option<string>, sanitized: string, id: UniqueId, size: Size)
    requires Acceptable(upload)
    ensures var h := DetectObjects(upload, sanitized, id, Some(size));
      && h.response.Ok?
      && h.response.report.original == "/static/uploads/" + id + "_" + sanitized
      && h.response.report.result == "/static/results/detected_" + id + "_" + sanitized
  {
    var n := SaveName(id, sanitized);
    var h := DetectObjects(upload, sanitized, id, Some(size));
    assert h.response.report.original == UploadUrlPrefix + n;
    assert h.response.report.result == ResultUrlPrefix + ResultName(n);
    UrlLayout(id, sanitized);
  }

  /** On success both reported URLs are the paths of the two writes made, with a leading `/`. */
  lemma UrlsAreWrittenPaths(upload: Option<string>, sanitized: string, id: UniqueId, size: Size)
    requires Acceptable(upload)
    ensures var h := DetectObjects(upload, sanitized, id, Some(size));
      && |h.writes| == 2 && h.writes[0].Upload? && h.writes[1].Annotated?
      && h.response.report.original == "/" + h.writes[0].path
      && h.response.report.result == "/" + h.writes[1].path
      && h.response.report.original == UploadUrlPrefix + SaveName(id, sanitized)
      && h.response.report.result == ResultUrlPrefix + ResultTag + SaveName(id, sanitized)
  {
    var n := SaveName(id, sanitized);
    var h := DetectObjects(upload, sanitized, id, Some(size));
    assert h.response.report.original == UploadUrlPrefix + n;
    assert h.response.report.result == ResultUrlPrefix + ResultName(n);
    assert h.writes[0].path == Join(UploadFolder, n);
    assert h.writes[1].path == Join(ResultFolder, ResultName(n));
    assert ResultUrlPrefix + ResultName(n) == ResultUrlPrefix + ResultTag + n;
    UploadUrlIsPath(id, sanitized);
    ResultUrlIsPath(id, sanitized);
  }

  /** The result URL is always the upload's stored name with the `detected_` tag, in the results folder. */
  lemma ResultDerivesFromOriginal(upload: Option<string>, sanitized: string, id: UniqueId, size: Size)
    requires Acceptable(upload)
    ensures var r := DetectObjects(upload, sanitized, id, Some(size)).response.report;
      && |r.original| >= |UploadUrlPrefix| && r.original[..|UploadUrlPrefix|] == UploadUrlPrefix
      && r.result == ResultUrlPrefix + ResultTag + r.original[|UploadUrlPrefix|..]
  {
    var n := SaveName(id, sanitized);
    assert (UploadUrlPrefix + n)[|UploadUrlPrefix|..] == n;
  }

  /**
    The annotated file holds one box and caption per reported detection, in
    order: the third rectangle is drawn exactly when Dog is reported.
   */
  lemma WrittenDrawingMatchesReport(upload: Option<string>, sanitized: string, id: UniqueId, size: Size)
    requires Acceptable(upload)
    ensures var h := DetectObjects(upload, sanitized, id, Some(size));
      && |h.writes| == 2 && h.writes[1].Annotated?
      && |h.writes[1].drawing| == 2 * |h.response.report.detections|
      && forall i :: 0 <= i < |h.response.report.detections| ==>
           h.response.report.detections[i].confidence < 100
           && DrawsDetection(h.writes[1].drawing, i, h.response.report.detections[i])
  {
    DrawingMatchesDetections(size);
  }

  /** Two successful requests with different identifiers store and report different files. */
  lemma DistinctIdsDistinctFiles(
    upload1: Option<string>, sanitized1: string, id1: UniqueId, size1: Size,
    upload2: Option<string>, sanitized2: string, id2: UniqueId, size2: Size)
    requires Acceptable(upload1) && Acceptable(upload2) && id1 != id2
    ensures var h1 := DetectObjects(upload1, sanitized1, id1, Some(size1));
      var h2 := DetectObjects(upload2, sanitized2, id2, Some(size2));
      && h1.response.report.original != h2.response.report.original
      && h1.response.report.result != h2.response.report.result
      && h1.writes[0].path != h2.writes[0].path
      && h1.writes[1].path != h2.writes[1].path
  {
    var n1 := SaveName(id1, sanitized1);
    var n2 := SaveName(id2, sanitized2);
    SaveNameInjective(id1, sanitized1, id2, sanitized2);
    DistinctUnderPrefix(UploadUrlPrefix, n1, n2);
    DistinctUnderPrefix(ResultUrlPrefix + ResultTag, n1, n2);
    UrlsAreWrittenPaths(upload1, sanitized1, id1, size1);
    UrlsAreWrittenPaths(upload2, sanitized2, id2, size2);
  }
}

=== FILE: paths.dfy ===
/**
  Names and locations of the two files a successful request stores: the
  upload, saved as `<id>_<name>` under the uploads folder, and the annotated
  result, saved as `detected_<id>_<name>` under the results folder.
 */
module Paths {

  /** The configured folders (relative to the working directory). */
  const UploadFolder: string := "static/uploads"
  const ResultFolder: string := "static/results"

  /** Prefixes of the URLs reported to the client. */
  const UploadUrlPrefix: string := "/static/uploads/"
  const ResultUrlPrefix: string := "/static/results/"

  /** Tag put in front of the stored upload name to name the result. */
  const ResultTag: string := "detected_"

  predicate IsHexDigit(c: char) {
    '0' <= c <= '9' || 'a' <= c <= 'f'
  }

  /** The first eight characters of the text form of a random UUID: lower-case hex digits. */
  type UniqueId = s: string | |s| == 8 && forall i :: 0 <= i < |s| ==> IsHexDigit(s[i])
    witness "00000000"

  /** `save_name`: the identifier, an underscore, the sanitised client name. */
  function SaveName(id: UniqueId, sanitized: string): string {
    id + "_" + sanitized
  }

  /** `result_name`: the stored upload name with the result tag in front. */
  function ResultName(saveName: string): string {
    ResultTag + saveName
  }

  /** POSIX `os.path.join(a, b)` for two components. */
  function Join(a: string, b: string): (r: string)
    ensures |b| > 0 && b[0] == '/' ==> r == b
    ensures !(|b| > 0 && b[0] == '/') ==>
      |a| + |b| <= |r| <= |a| + |b| + 1 && r[..|a|] == a && r[|r| - |b|..] == b
    ensures !(|b| > 0 && b[0] == '/') ==>
      (|r| == |a| + |b| + 1 <==> a != [] && a[|a| - 1] != '/')
    ensures |r| == |a| + |b| + 1 ==> r[|a|] == '/'
  {
    if |b| > 0 && b[0] == '/' then b
    else if a == [] || a[|a| - 1] == '/' then a + b
    else a + "/" + b
  }

  /** The name is recovered from the result name by dropping the tag. */
  lemma ResultNameRoundTrip(saveName: string)
    ensures |ResultName(saveName)| == |ResultTag| + |saveName|
    ensures ResultName(saveName)[..|ResultTag|] == ResultTag
    ensures ResultName(saveName)[|ResultTag|..] == saveName
  {
  }

  /**
    Distinct identifiers give distinct stored names, whatever the sanitised
    names are; equal stored names come from equal identifiers and names.
   */
  lemma SaveNameInjective(id1: UniqueId, s1: string, id2: UniqueId, s2: string)
    ensures SaveName(id1, s1) == SaveName(id2, s2) <==> id1 == id2 && s1 == s2
  {
    if SaveName(id1, s1) == SaveName(id2, s2) {
      var n := SaveName(id1, s1);
      assert id1 == n[..8] == id2;
      assert s1 == n[9..] == s2;
    }
  }

  /** A stored name starts with a hex digit of its identifier, never with `/`. */
  lemma SaveNameStart(id: UniqueId, sanitized: string)
    ensures |SaveName(id, sanitized)| > 0 && IsHexDigit(SaveName(id, sanitized)[0])
  {
    assert SaveName(id, sanitized)[0] == id[0];
  }

  /**
    Joining a folder to a stored name only inserts a separator, and the
    reported URL is that path with a leading `/`: the client is pointed at
    exactly the path the handler writes to.
   */
  lemma UploadUrlIsPath(id: UniqueId, sanitized: string)
    ensures Join(UploadFolder, SaveName(id, sanitized)) == UploadFolder + "/" + SaveName(id, sanitized)
    ensures UploadUrlPrefix + SaveName(id, sanitized) == "/" + Join(UploadFolder, SaveName(id, sanitized))
  {
    var n := SaveName(id, sanitized);
    SaveNameStart(id, sanitized);
    assert UploadFolder[|UploadFolder| - 1] == 's';
    assert UploadUrlPrefix == "/" + UploadFolder + "/";
  }

  /** As `UploadUrlIsPath`, for the annotated result. */
  lemma ResultUrlIsPath(id: UniqueId, sanitized: string)
    ensures Join(ResultFolder, ResultName(SaveName(id, sanitized)))
         == ResultFolder + "/" + ResultName(SaveName(id, sanitized))
    ensures ResultUrlPrefix + ResultName(SaveName(id, sanitized))
         == "/" + Join(ResultFolder, ResultName(SaveName(id, sanitized)))
  {
    var r := ResultName(SaveName(id, sanitized));
    assert r[0] == 'd';
    assert ResultFolder[|ResultFolder| - 1] == 's';
    assert ResultUrlPrefix == "/" + ResultFolder + "/";
  }

  /** The URLs spelled out: folder, identifier, underscore, sanitised name. */
  lemma UrlLayout(id: UniqueId, sanitized: string)
    ensures UploadUrlPrefix + SaveName(id, sanitized) == "/static/uploads/" + id + "_" + sanitized
    ensures ResultUrlPrefix + ResultName(SaveName(id, sanitized)) == "/static/results/detected_" + id + "_" + sanitized
  {
  }

  /** A common prefix keeps distinct names distinct. */
  lemma DistinctUnderPrefix(prefix: string, a: string, b: string)
    requires a != b
    ensures prefix + a != prefix + b
  {
    assert (prefix + a)[|prefix|..] == a;
    assert (prefix + b)[|prefix|..] == b;
  }
}

=== FILE: text.dfy ===
/**
  The small part of Python's `str` behaviour that `allowed_file` relies on:
  `lower()` (restricted to ASCII), the `in` test for one character and
  `rsplit(sep, 1)`.
 */
module Text {
  import opened Wrappers

  /** ASCII lowercasing of one character; every other character is unchanged. */
  function LowerChar(c: char): char {
    if 'A' <= c <= 'Z' then (c as int - 'A' as int + 'a' as int) as char else c
  }

  /** `s.lower()` for ASCII text: the same length, every character lowered. */
  function Lower(s: string): (r: string)
    ensures |r| == |s|
    ensures forall i :: 0 <= i < |s| ==> r[i] == LowerChar(s[i])
  {
    if s == [] then [] else [LowerChar(s[0])] + Lower(s[1..])
  }

  /** Lowering a character never creates nor removes a character that is not a letter. */
  lemma LowerCharKeeps(c: char, d: char)
    requires !('A' <= d <= 'Z') && !('a' <= d <= 'z')
    ensures LowerChar(c) == d <==> c == d
  {
  }

  /** Lowering twice is lowering once. */
  lemma LowerIdempotent(s: string)
    ensures Lower(Lower(s)) == Lower(s)
  {
  }

  /** Lowering commutes with taking a suffix. */
  lemma LowerSuffix(s: string, k: nat)
    requires k <= |s|
    ensures Lower(s[k..]) == Lower(s)[k..]
  {
  }

  /**
    The position of the last occurrence of `c` in `s`, or `None` when `c` does
    not occur: the index `rsplit` cuts at.
   */
  function LastIndexOf(s: string, c: char): (r: Option<nat>)
    ensures r.None? <==> c !in s
    ensures r.Some? ==> r.value < |s| && s[r.value] == c && c !in s[r.value + 1..]
  {
    if s == [] then None
    else if s[|s| - 1] == c then Some(|s| - 1)
    else
      var r := LastIndexOf(s[..|s| - 1], c);
      assert forall j :: 0 <= j < |s| - 1 ==> s[..|s| - 1][j] == s[j];
      r
  }

  /** Any occurrence of `c` after which `c` does not occur again is the last one. */
  lemma LastIndexOfUnique(s: string, c: char, i: nat)
    requires i < |s| && s[i] == c && c !in s[i + 1..]
    ensures LastIndexOf(s, c) == Some(i)
  {
  }

  /**
    Python's `s.rsplit(sep, 1)`: `[s]` when `sep` does not occur, otherwise the
    text before and after the last `sep`. Joining the parts with `sep` gives `s` back.
   */
  function RSplitOnce(s: string, sep: char): (parts: seq<string>)
    ensures sep !in s ==> parts == [s]
    ensures sep in s ==> |parts| == 2 && s == parts[0] + [sep] + parts[1] && sep !in parts[1]
  {
    match LastIndexOf(s, sep)
    case None => [s]
    case Some(i) =>
      assert s == s[..i] + [sep] + s[i + 1..];
      [s[..i], s[i + 1..]]
  }
}

=== FILE: upload_policy.dfy ===
/**
  The extension allow-list of the upload endpoint (`allowed_file`): a file
  name is accepted when it contains a dot and the text after its LAST dot,
  lowercased, is one of four image extensions.
 */
module UploadPolicy {
  import opened Text

  /** The extensions the endpoint accepts, in lower case. */
  const AllowedExtensions: set<string> := {"png", "jpg", "jpeg", "gif"}

  /** `allowed_file(filename)` */
  predicate AllowedFile(filename: string) {
    '.' in filename && Lower(RSplitOnce(filename, '.')[1]) in AllowedExtensions
  }

  /** `filename` is `stem`, a dot, and an extension that holds no further dot. */
  predicate IsDotSplit(filename: string, stem: string, ext: string) {
    filename == stem + "." + ext && '.' !in ext
  }

  /** A name is split at its last dot in exactly one way. */
  lemma DotSplitUnique(filename: string, stem: string, ext: string)
    requires IsDotSplit(filename, stem, ext)
    ensures RSplitOnce(filename, '.') == [stem, ext]
  {
    assert filename[|stem|] == '.';
    assert filename[|stem| + 1..] == ext;
    LastIndexOfUnique(filename, '.', |stem|);
    assert filename[..|stem|] == stem;
  }

  /**
    Only the text after the last dot decides, and it decides regardless of
    the stem: `x.tar.png` is accepted, `photo.png.txt` is not.
   */
  lemma LastExtensionDecides(stem: string, ext: string)
    requires '.' !in ext
    ensures AllowedFile(stem + "." + ext) <==> Lower(ext) in AllowedExtensions
  {
    DotSplitUnique(stem + "." + ext, stem, ext);
  }

  /**
    Declarative reading of `allowed_file`: the name splits as stem, dot,
    dot-free extension, and the lowered extension is allowed. In particular a
    name without a dot, the empty name among them, is refused.
   */
  lemma AllowedFileMeans(filename: string)
    ensures AllowedFile(filename) <==>
      exists stem, ext :: IsDotSplit(filename, stem, ext) && Lower(ext) in AllowedExtensions
    ensures '.' !in filename ==> !AllowedFile(filename)
  {
    if AllowedFile(filename) {
      var parts := RSplitOnce(filename, '.');
      assert IsDotSplit(filename, parts[0], parts[1]);
    }
    if exists stem, ext :: IsDotSplit(filename, stem, ext) && Lower(ext) in AllowedExtensions {
      var stem, ext :| IsDotSplit(filename, stem, ext) && Lower(ext) in AllowedExtensions;
      DotSplitUnique(filename, stem, ext);
    }
  }

  /** Lowering the whole name changes neither where it splits nor the verdict. */
  lemma AllowedFileOfLower(filename: string)
    ensures AllowedFile(Lower(filename)) == AllowedFile(filename)
  {
    var low := Lower(filename);
    LowerCharKeeps('.', '.');
    forall i | 0 <= i < |filename|
      ensures low[i] == '.' <==> filename[i] == '.'
    {
      LowerCharKeeps(filename[i], '.');
    }
    if '.' in filename {
      var i := LastIndexOf(filename, '.').value;
      assert low[i] == '.';
      forall j | i + 1 <= j < |filename|
        ensures low[j] != '.'
      {
        assert filename[j] == filename[i + 1..][j - i - 1];
      }
      assert '.' !in low[i + 1..];
      LastIndexOfUnique(low, '.', i);
      LowerSuffix(filename, i + 1);
      LowerIdempotent(filename[i + 1..]);
    } else {
      assert '.' !in low;
    }
  }

  /** Case does not matter: names that lower to the same text get the same verdict. */
  lemma CaseInsensitive(a: string, b: string)
    requires Lower(a) == Lower(b)
    ensures AllowedFile(a) == AllowedFile(b)
  {
    AllowedFileOfLower(a);
    AllowedFileOfLower(b);
  }

  /** A name without any dot, the empty name among them, is refused. */
  lemma NoDotExamples()
    ensures !AllowedFile("") && !AllowedFile("photo")
  {
    AllowedFileMeans("");
    AllowedFileMeans("photo");
  }

  /** A trailing dot leaves an empty extension, which is refused. */
  lemma TrailingDotExample()
    ensures !AllowedFile("name.")
  {
    assert "name." == "name" + "." + "";
    LastExtensionDecides("name", "");
  }

  /**
    Only the last extension counts: an allowed one after another extension is
    accepted, and so is a name that is nothing but a dot and an extension.
   */
  lemma LastExtensionAccepted()
    ensures AllowedFile("x.tar.png")
    ensures AllowedFile(".gif")
  {
    assert ".gif" == "" + "." + "gif";
    assert Lower("gif") == "gif";
    LastExtensionDecides("", "gif");
    assert "x.tar.png" == "x.tar" + "." + "png";
    assert Lower("png") == "png";
    LastExtensionDecides("x.tar", "png");
  }

  /** Only the last extension counts: an allowed one before it does not help. */
  lemma DoubleExtensionRefused()
    ensures !AllowedFile("photo.png.txt")
  {
    var stem, ext := "photo.png", "txt";
    assert Lower(ext) == ext;
    assert ext !in AllowedExtensions;
    LastExtensionDecides(stem, ext);
    assert stem + "." + ext == "photo.png.txt";
  }

  /** Upper-case extensions are accepted like lower-case ones. */
  lemma MixedCaseExample()
    ensures AllowedFile("A.JPG") && AllowedFile("a.jpg")
  {
    assert "A.JPG" == "A" + "." + "JPG";
    assert Lower("JPG") == "jpg";
    LastExtensionDecides("A", "JPG");
    assert "a.jpg" == "a" + "." + "jpg";
    assert Lower("jpg") == "jpg";
    LastExtensionDecides("a", "jpg");
  }
}

=== FILE: wrappers.dfy ===
/** Optional values, used for the handler's inputs that may be absent. */
module Wrappers {

  /** `None` stands for Python's `None` or an absent value. */
  datatype Option<+T> = None | Some(value: T)
}
